=== FILE: README.md ===
# CerealStore in Dafny

This project models `CerealStore`, a PHP class that serves as a small key-value store. Its whole contents can be turned into one text token and back, so application settings can travel in a URL. The class wraps a PHP array and offers:

- array access (`offsetSet`, `offsetGet`, `offsetExists`, `offsetUnset`) and the named forms `add`, `get`, `has`, `remove` and `addArray`;
- `count` and the `Iterator` methods;
- `serialize`, which is `base64_encode(gzdeflate(json_encode($store)))`;
- `unserialize`, which runs those stages backwards and falls back to an empty store on any failure;
- `__toString` and a constructor that unserialises its argument.

The model is functional. A store is an immutable value and every operation returns a new one.

- `Keys` (`keys.dfy`) covers PHP's array-key rule. A string that spells a canonical decimal integer in the 64-bit range is turned into that integer, so `"1"` and `1` address the same entry. `"01"`, `"-0"` and `" 1"` stay strings. The module also has the decimal spelling of integers, which json_encode uses to turn integer keys into member names.
- `Values` (`values.dfy`) holds the stored values. They are JSON-shaped: null, bool, 64-bit int, string, list and object. It also defines PHP's truth test on a decoded value and the constraints json_encode/json_decode impose on a document.
- `CerealStore` (`store.dfy`) is the PHP array itself. `Store(entries, nextFree)` holds the entries in insertion order plus the engine's next free integer index. The module defines the array-access operations, `count`, `addArray` and iteration. Iteration is modelled as walking the entries by position.
- `StoreProperties` (`store_properties.dfy`) has the lemmas that connect operations. These cover `addArray` against single writes, appends on a fresh store, and null values against absent keys.
- `Serialization` (`serialization.dfy`) covers the token pipeline. The three library pairs are the fields of a `Codec`. `Lawful(c)` states the laws the model relies on:
  - on the values modelled here, whose text is Unicode, json_encode fails only on nesting deeper than 512;
  - json_decode reads back what json_encode wrote, except that it refuses property names that start with NUL;
  - gzinflate undoes raw DEFLATE (RFC 1951);
  - base64_decode undoes base64_encode (section 4 of RFC 4648);
  - decoding an empty text fails.
- `SerializationProperties` (`serialization_properties.dfy`) has the round trip, the constructor, and the fail-soft lemmas.

A PHP array always satisfies `Valid`: its keys are unique and normal, and the next free index lies above every integer key. It sticks at PHP_INT_MAX once that key is taken. The operations preserve `Valid`. Appends follow the PHP 5/7 engine:
- the next free index starts at 0;
- adding a new integer key `h` at or above it moves it to `h + 1`;
- `unset` never lowers it;
- an append whose slot is taken does nothing.

## Model

| member | source | states |
|---|---|---|
| Values.FalseValues | CerealStore.php:123 | The `if` on the decoded value fails exactly for null, false, 0, `""`, `"0"` and the empty array. Every object, even an empty one, passes. |
| Keys.NormalizeKey | CerealStore.php:163-187 | The key an offset addresses. null is `""` and a bool is 0 or 1. A string becomes an integer key exactly when it is a canonical decimal integer in the 64-bit range, and the integer's decimal spelling is then that string. Any other string is kept as it is. The result is always a normal key. |
| Keys.IntToDecimal | CerealStore.php:102 | The decimal name json_encode gives an integer key is a canonical decimal integer that reads back as the same integer. |
| Keys.NatToDigits | CerealStore.php:102 | The digits of a natural number are canonical (no leading zero) and read back as the number. |
| Keys.DecimalRoundTrip | CerealStore.php:167 | Every canonical decimal string is the spelling of its own value. Only one spelling of each integer is aliased to the integer key. |
| Keys.DigitsRoundTrip | CerealStore.php:167 | Reading a canonical digit string and writing the number back gives the same digits. |
| Keys.NameNormalizesBack | CerealStore.php:123-124 | A normal key written out as a JSON member name and read back through the key rule is the same key. |
| Keys.NamesDistinct | CerealStore.php:102 | Distinct normal keys get distinct member names, so the encoded object has no duplicate names. |
| Keys.OffsetNormalizesBack | CerealStore.php:88-89 | A key taken from another array and passed to `add` addresses the same key. |
| Keys.NumericStringAliases | CerealStore.php:167 | `"1"` and `1` reach the same key, and so do `"-12"` and -12. `"01"`, `"-0"` and `" 1"` are string keys. null reaches `""` and true reaches 1. |
| CerealStore.IndexOf | CerealStore.php:177 | Finds the first position holding a key, or reports that no position holds it. |
| CerealStore.Put | CerealStore.php:167 | After a write, the key finds the new value and every other key finds what it found before. Overwriting keeps the length and the key at every position. A new key is appended at the end. The next free index never falls. A new string key leaves it alone. A new integer key at or above it moves it to one past that key, capped at PHP_INT_MAX, and a new integer key below it leaves it alone. Validity is preserved. |
| CerealStore.Append | CerealStore.php:164-165 | `$store[] = v` adds exactly one entry at the end, keyed by the next free index. That index is above every integer key present. It leaves the store unchanged exactly when the next free index is PHP_INT_MAX and that key is taken. Otherwise the next free index moves up by one, or stays at PHP_INT_MAX. Validity is preserved. |
| CerealStore.Set | CerealStore.php:163-171 | `offsetSet`/`add`: a null offset appends. Any other offset writes the normalised key with the value and leaves every other key's lookup as it was. Validity is preserved. |
| CerealStore.Has | CerealStore.php:173-178 | True exactly when some entry is under the normalised key, whatever its value, null or false included. |
| CerealStore.Get | CerealStore.php:185-187 | Returns null when the key is absent. Otherwise it returns the stored value, which is null when null is stored. |
| CerealStore.Without | CerealStore.php:181 | The result holds no entry under the key. With unique keys it is the input with exactly the one matching entry cut out, or the input unchanged. |
| CerealStore.WithoutKeepsOthers | CerealStore.php:181 | Removing one key leaves what every other key finds. |
| CerealStore.Remove | CerealStore.php:180-183 | `offsetUnset`/`remove`: afterwards `has` is false for the key. Every other key's lookup is unchanged and the next free index stays. On a valid store it cuts out exactly the key's entry and keeps the order of the rest. Removing an absent key returns the store unchanged. |
| CerealStore.DistinctKeysCount | CerealStore.php:158-160 | Entries with unique keys are as many as the distinct keys. |
| CerealStore.Count | CerealStore.php:158-160 | On a valid store, `count` is the number of distinct keys stored. It is 0 exactly when no offset is present. |
| CerealStore.AddArray | CerealStore.php:87-92 | `addArray` writes each pair through `add` in the array's order. It preserves validity and never drops entries. |
| CerealStore.AppendAll | CerealStore.php:164-165 | Repeated appends preserve validity. |
| CerealStore.KeyAt | CerealStore.php:141-143 | `key()` gives the key at the position, or null past the end. |
| CerealStore.CurrentAt | CerealStore.php:137-139 | `current()` gives the value at the position, or false past the end. |
| CerealStore.Iterate | CerealStore.php:137-155 | A `foreach` (`rewind`, then `valid`/`key`/`current`/`next`) yields every entry exactly once, in insertion order. |
| StoreProperties.AddArrayLookup | CerealStore.php:87-92 | After `addArray(d)`, every key of d finds d's value. Every other key finds what it found before. |
| StoreProperties.AddArrayExtends | CerealStore.php:87-92 | When d's keys are new to the store, `addArray(d)` appends d's pairs in d's order. |
| StoreProperties.AddArrayIntoEmpty | CerealStoreTest.php:125-140 | `addArray(d)` on a fresh store holds exactly d's pairs in d's order, so its count equals d's size. |
| StoreProperties.AppendAllIsAddArray | CerealStore.php:164-165 | Appending values one after another writes them under consecutive indices from the next free one. The result equals `addArray` of those index/value pairs, including the next free index. |
| StoreProperties.FreshAppends | CerealStoreTest.php:52-71 | On a fresh store, successive appends get keys 0, 1, 2, …, and the entries come out in that order. |
| StoreProperties.GetHidesNull | CerealStore.php:185-187 | `get` returns null both for a stored null and after `remove`. `has` is true after storing null or false and false after `remove`. |
| StoreProperties.RemoveCount | CerealStoreTest.php:30-47 | Removing a present key lowers `count` by one. Removing an absent key changes nothing. |
| StoreProperties.AppendAfterIntKey | CerealStore.php:164-167 | `$s[5] = a; $s[] = b;` files `b` under 6, one past the largest integer key, and the next free index becomes 7. |
| StoreProperties.FreshArrayForgetsNextIndex | CerealStore.php:180-183 | After two appends and the removal of index 1, the store appends next at 2. A fresh array built from the same entries, which is what the round trip gives, appends at 1. |
| StoreProperties.OverwriteKeepsPosition | CerealStore.php:167 | Writing "a", then "b", then "a" again leaves "a" first with its new value and "b" second. |
| Serialization.ToJson | CerealStore.php:102 | json_encode writes the store as a list exactly when its keys are 0, 1, 2, … in order, and as an object otherwise. The document is false exactly when the store is empty. |
| Serialization.RepresentableEncodable | CerealStore.php:102 | The document of a valid store is one json_decode reads back unchanged when its values are nested at most 511 deep, have distinct member names and no NUL-led names, and no key name starts with NUL. |
| Serialization.Serialize | CerealStore.php:101-103 | Under the library laws, the token of a valid, representable store decodes, stage by stage, to the store's JSON document. |
| Serialization.DecodeToken | CerealStore.php:123 | `json_decode(gzinflate(base64_decode($data)))`, with each failed stage handing `""` to the next. Under the library laws, a failed base64 stage makes the whole decode fail. A decode succeeds only if the base64 and inflate stages both succeeded. |
| Serialization.AddMembers | CerealStore.php:124 | The `(array)` cast of a decoded object. A valid store stays valid, and the cast adds at most one entry per property. What lands where is stated by SerializationProperties.ForeignObject. |
| Serialization.TokenOf | CerealStore.php:117-119 | A text is decoded as given. Another store is replaced by its `__toString`, whose token decodes to that store's JSON document. |
| Serialization.Cast | CerealStore.php:124 | `(array)` of a decoded value gives a valid array. A list keeps its positions 0, 1, 2, … as keys. Any scalar becomes the single entry `[0 => value]`. |
| Serialization.Unserialize | CerealStore.php:114-130 | The result is a valid store built from the decoded data alone, never merged with earlier contents. It is empty when decoding fails or the decoded value is false. A true decoded value is cast to an array: a list gets keys 0, 1, 2, ... in order, a scalar becomes `[0 => value]`, and an object's members are written in turn. |
| Serialization.Construct | CerealStore.php:29-33 | Without data the store is empty. With data it is exactly `unserialize(data)`. |
| Serialization.ToString | CerealStore.php:132-134 | `__toString` yields the token, which decodes to the store's JSON document. |
| SerializationProperties.AddMembersIsAddArray | CerealStore.php:124 | Casting an object whose member names are the keys' spellings rebuilds the array through the key rule. |
| SerializationProperties.CastOfToJson | CerealStore.php:123-124 | Casting a store's own document gives the fresh array built from the store's entries. |
| SerializationProperties.RoundTrip | CerealStore.php:101-127 | `unserialize(serialize(s))` holds the same entries in the same order as a valid, representable s. Serialising it again gives the same token. Its next free index is a fresh array's for those entries. |
| SerializationProperties.ConstructFromStore | CerealStore.php:117-119 | Constructing from another store is constructing from its `__toString` token. It copies the other store's entries, and the copy has the same token. |
| SerializationProperties.ForeignObject | CerealStore.php:123-124 | For any decoded object with distinct member names, whether or not the store wrote it, the cast gives exactly one entry per member, in the object's order. Each entry sits under the key the member's name addresses through the key rule and holds the member's value. |
| SerializationProperties.ForeignToken | CerealStore.php:121-126 | For any token, including one the store did not write: a decoded list is filed under 0, 1, 2, ... in order, a decoded object's members land under the keys their names address, in order, and a true scalar becomes the single entry `0 => value`. |
| SerializationProperties.FailSoft | CerealStore.php:121-127 | A failed base64 stage, a failed inflate, or a false decoded value each leave an empty store. |
| SerializationProperties.TooDeepEmpties | CerealStore.php:102 | If any stored value is nested 512 deep, json_encode fails, and the token unserialises to an empty store. |
| SerializationProperties.NulKeyEmpties | CerealStore.php:123 | A single key starting with NUL makes json_decode fail, so the whole store unserialises to empty. |
| SerializationProperties.SerializationScenario | CerealStoreTest.php:146-190 | This is the class's serialisation test. `addArray` of one/two/three gives count 3. The token read back through the constructor has all three keys and `get("two")` is 2. The copy's `__toString` equals the token. |

## Left out

- The concrete json_encode/json_decode, gzdeflate/gzinflate and base64_encode/base64_decode are library calls. They are parameters (`Codec`) constrained by `Lawful`, and the model does not reimplement them.
- Text values and keys are modelled as Unicode strings, not PHP byte strings. json_encode fails on bytes that are not valid UTF-8, and the store then serialises to the token of an empty text and reloads empty. That failure path is not modelled.
- Floating-point values, and integers that decode as floats, are not in `Value`.
- Nested values are JSON-shaped. The model does not keep apart a nested PHP associative array and the stdClass object json_decode returns for it.
- Decoded object keys go back through the key rule, as PHP 7.2 and later do when casting a stdClass to an array. Earlier versions kept numeric property names as unreachable string keys, and that is not modelled.
- Before PHP 7.1, json_decode stored an empty property name as `_empty_`. That is not modelled.
- The next free index follows the PHP 5/7 engine rule. PHP 8 throws an Error where the model's append at a taken slot does nothing. PHP 8.3 continues after a negative largest key, where the model restarts at 0.
- Offsets other than null, bool, int and string are not modelled. Floats are truncated and arrays or objects are illegal offsets.
- PHP's internal array pointer is not modelled. Iteration is a walk by position, and mutation during iteration is not modelled.
- A JSON text that names the same member twice is read by json_decode with the last value winning, at the position of the first occurrence. The model's decode law covers only documents with distinct names, so this case is not stated.
- CerealStore.AddArray: its own contract states only validity and growth. The content of the result is stated by StoreProperties.AddArrayLookup and StoreProperties.AddArrayExtends.
- SerializationProperties.RoundTrip: it equates entries within the JSON-shaped `Value`. In PHP a nested associative array comes back as a stdClass object, because `json_decode` at CerealStore.php:123 has no associative flag. So the program's round trip is exact only for entries whose values hold no nested associative array.
- Serialization.Cast: its own contract does not describe the object case. That case is stated by SerializationProperties.ForeignObject and SerializationProperties.ForeignToken for any decoded object, and by SerializationProperties.AddMembersIsAddArray for a store's own document.
- Serialization.AddMembers: its own contract states only validity and size bounds, because it runs over any starting store. Its content on the fresh array `unserialize` starts from is stated by SerializationProperties.ForeignObject.
- example.php is not part of this model: HTTP parameters, redirects and HTML. It calls `isEmpty()`, which CerealStore.php does not define.
- `__toString` passes `$this` to `serialize`, which ignores it.

## Behaviour of the code worth knowing

- `get` returns null both for a missing key and for a stored null. Only `has` tells them apart.
- A true decoded scalar is cast with `(array)` and becomes `[0 => value]`. A decoded empty object `{}` is true and gives an empty store.
- The round trip keeps the top-level entries and their order. It keeps scalar values and lists of them. A nested associative array comes back as a stdClass object, because json_decode is called without its associative flag and the `(array)` cast converts only the top level. The model's `Value` does not tell the two apart, so `SerializationProperties.RoundTrip` is exact only for values without nested associative arrays. The round trip does not keep the next free index either. After `$s[] = a; $s[] = b; unset($s[1]);` the original appends next at 2, while a copy read from its token appends at 1 (StoreProperties.FreshArrayForgetsNextIndex with SerializationProperties.RoundTrip).

=== FILE: keys.dfy ===
/**
 * Array keys and PHP's array-key rule.
 *
 * A PHP array is addressed by integer or string keys. A string that spells a
 * canonical decimal integer inside the 64-bit range is turned into that
 * integer before it addresses the array, so `"1"` and `1` reach the same
 * entry while `"01"`, `"-0"` and `"+1"` stay strings.
 */
module Keys {

  const MinInt64: int := -0x8000_0000_0000_0000
  const MaxInt64: int := 0x7FFF_FFFF_FFFF_FFFF

  /** PHP's `int` on a 64-bit build. */
  type Int64 = i: int | MinInt64 <= i <= MaxInt64

  /** A normalised array key. */
  datatype Key = IntKey(i: Int64) | StrKey(s: string)

  /** What a caller may pass as an offset: `null`, a bool, an int or a string. */
  datatype Offset = NullOffset | BoolOffset(b: bool) | IntOffset(n: Int64) | StrOffset(text: string)

  // ---------------------------------------------------------------------------
  // Decimal spelling of integers
  // ---------------------------------------------------------------------------

  predicate IsDigit(c: char) {
    '0' <= c <= '9'
  }

  function DigitValue(c: char): nat
    requires IsDigit(c)
  {
    (c as int) - ('0' as int)
  }

  function DigitChar(d: nat): (c: char)
    requires d < 10
    ensures IsDigit(c) && DigitValue(c) == d
  {
    (('0' as int) + d) as char
  }

  predicate IsDigits(d: string) {
    forall i | 0 <= i < |d| :: IsDigit(d[i])
  }

  /** A non-empty digit string without a superfluous leading zero. */
  predicate IsCanonicalDigits(d: string) {
    |d| > 0 && IsDigits(d) && (d[0] == '0' ==> |d| == 1)
  }

  /** "0", or an optional '-' followed by canonical digits other than "0". */
  predicate IsDecimalInteger(s: string) {
    if |s| > 0 && s[0] == '-' then IsCanonicalDigits(s[1..]) && s[1..] != "0"
    else IsCanonicalDigits(s)
  }

  /** The number a digit string spells, read most significant digit first. */
  function DigitsValue(d: string): nat
    requires IsDigits(d)
  {
    if |d| == 0 then 0 else 10 * DigitsValue(d[..|d| - 1]) + DigitValue(d[|d| - 1])
  }

  function DecimalValue(s: string): int
    requires IsDecimalInteger(s)
  {
    if |s| > 0 && s[0] == '-' then -(DigitsValue(s[1..]) as int) else DigitsValue(s)
  }

  /** The shortest digit string of `n`; it reads back as `n`. */
  function NatToDigits(n: nat): (d: string)
    ensures IsCanonicalDigits(d)
    ensures DigitsValue(d) == n
  {
    if n < 10 then [DigitChar(n)]
    else
      var p := NatToDigits(n / 10);
      var d := p + [DigitChar(n % 10)];
      assert d[..|d| - 1] == p;
      assert |p| == 1 ==> DigitsValue(p) == DigitValue(p[0]) by {
        if |p| == 1 {
          assert p[..0] == [];
        }
      }
      d
  }

  /** PHP's decimal form of an integer, as `(string)$i` writes it. */
  function IntToDecimal(i: int): (s: string)
    ensures IsDecimalInteger(s)
    ensures DecimalValue(s) == i
  {
    if i < 0 then
      var s := "-" + NatToDigits(-i);
      assert s[1..] == NatToDigits(-i);
      s
    else NatToDigits(i)
  }

  lemma {:induction false} DigitsPositive(d: string)
    requires |d| > 0 && IsDigits(d) && d[0] != '0'
    ensures DigitsValue(d) >= 1
  {
    if |d| > 1 {
      var p := d[..|d| - 1];
      assert p[0] == d[0];
      DigitsPositive(p);
    }
  }

  /** Reading a canonical digit string and writing the number back gives the same string. */
  lemma {:induction false} DigitsRoundTrip(d: string)
    requires IsCanonicalDigits(d)
    ensures NatToDigits(DigitsValue(d)) == d
  {
    if |d| == 1 {
      assert DigitChar(DigitValue(d[0])) == d[0];
    } else {
      var p := d[..|d| - 1];
      assert p[0] == d[0];
      DigitsPositive(p);
      DigitsRoundTrip(p);
      assert d == p + [d[|d| - 1]];
    }
  }

  /** The decimal spelling is canonical: every decimal-integer string is the spelling of its value. */
  lemma DecimalRoundTrip(s: string)
    requires IsDecimalInteger(s)
    ensures IntToDecimal(DecimalValue(s)) == s
  {
    if |s| > 0 && s[0] == '-' {
      DigitsRoundTrip(s[1..]);
      DigitsPositive(s[1..]);
      assert s == "-" + s[1..];
    } else {
      DigitsRoundTrip(s);
    }
  }

  // ---------------------------------------------------------------------------
  // The array-key rule
  // ---------------------------------------------------------------------------

  predicate InInt64(i: int) {
    MinInt64 <= i <= MaxInt64
  }

  /** A string PHP turns into an integer key. */
  predicate IsIntegerKeyString(s: string) {
    IsDecimalInteger(s) && InInt64(DecimalValue(s))
  }

  /** A key as PHP stores it: a string key never spells an in-range canonical integer. */
  predicate IsNormalKey(k: Key) {
    k.StrKey? ==> !IsIntegerKeyString(k.s)
  }

  /**
   * The key that `$array[$o]` addresses: `null` is the empty string, a bool is
   * 0 or 1, and an integer-spelling string is its integer.
   */
  function NormalizeKey(o: Offset): (k: Key)
    ensures IsNormalKey(k)
    ensures o.NullOffset? ==> k == StrKey("")
    ensures o.BoolOffset? ==> k == IntKey(if o.b then 1 else 0)
    ensures o.IntOffset? ==> k == IntKey(o.n)
    ensures o.StrOffset? ==> (k.IntKey? <==> IsIntegerKeyString(o.text))
    ensures o.StrOffset? && k.StrKey? ==> k.s == o.text
    ensures o.StrOffset? && k.IntKey? ==> IntToDecimal(k.i) == o.text
  {
    match o
    case NullOffset => StrKey("")
    case BoolOffset(b) => IntKey(if b then 1 else 0)
    case IntOffset(n) => IntKey(n)
    case StrOffset(text) =>
      if IsIntegerKeyString(text) then
        DecimalRoundTrip(text);
        IntKey(DecimalValue(text))
      else StrKey(text)
  }

  /** The name a key gets as a JSON object member: integers in decimal. */
  function KeyName(k: Key): string {
    match k
    case IntKey(i) => IntToDecimal(i)
    case StrKey(s) => s
  }

  /** The offset a key of another array is passed as. */
  function KeyOffset(k: Key): Offset {
    match k
    case IntKey(i) => IntOffset(i)
    case StrKey(s) => StrOffset(s)
  }

  /** A key written out as a member name and read back through the key rule is the same key. */
  lemma NameNormalizesBack(k: Key)
    requires IsNormalKey(k)
    ensures NormalizeKey(StrOffset(KeyName(k))) == k
  {
  }

  /** Distinct normal keys have distinct member names. */
  lemma NamesDistinct(k1: Key, k2: Key)
    requires IsNormalKey(k1) && IsNormalKey(k2)
    requires k1 != k2
    ensures KeyName(k1) != KeyName(k2)
  {
    NameNormalizesBack(k1);
    NameNormalizesBack(k2);
  }

  lemma OffsetNormalizesBack(k: Key)
    requires IsNormalKey(k)
    ensures NormalizeKey(KeyOffset(k)) == k
  {
  }

  /** `"1"` aliases `1`; `"01"`, `"-0"` and `" 1"` are strings of their own. */
  lemma NumericStringAliases()
    ensures NormalizeKey(StrOffset("1")) == NormalizeKey(IntOffset(1)) == IntKey(1)
    ensures NormalizeKey(StrOffset("-12")) == IntKey(-12)
    ensures NormalizeKey(StrOffset("01")) == StrKey("01")
    ensures NormalizeKey(StrOffset("-0")) == StrKey("-0")
    ensures NormalizeKey(StrOffset(" 1")) == StrKey(" 1")
    ensures NormalizeKey(NullOffset) == StrKey("")
    ensures NormalizeKey(BoolOffset(true)) == IntKey(1)
  {
    assert IsDecimalInteger("1");
    assert DigitsValue("1") == 1 by {
      assert "1"[..0] == "";
    }
    var t := "-12";
    assert t[1..] == "12";
    assert "12"[..1] == "1";
    assert DigitsValue("12") == 12;
    assert !IsDecimalInteger("01");
    assert "-0"[1..] == "0";
    assert !IsDecimalInteger("-0");
    assert !IsDigit(' ');
  }
}

=== FILE: serialization.dfy ===
/**
 * The store's text token: `serialize` is base64(raw DEFLATE(JSON(array)))
 * and `unserialize` runs the three stages backwards, falling back to an
 * empty store when any of them fails or yields a false value.
 *
 * The three library pairs (json_encode/json_decode, gzdeflate/gzinflate,
 * base64_encode/base64_decode) are not reimplemented: they are the fields of
 * a `Codec`, and `Lawful` states what the model relies on about them.
 */
module Serialization {
  import opened Wrappers
  import opened Keys
  import opened Values
  import opened CerealStore
  import opened StoreProperties

  newtype byte = b: int | 0 <= b < 256

  type Bytes = seq<byte>

  /** The library calls of the pipeline; `None` stands for the `false` or `null` they return on failure. */
  datatype Codec = Codec(
    jsonEncode: Value -> Option<Bytes>,
    jsonDecode: Bytes -> Option<Value>,
    deflate: Bytes -> Bytes,
    inflate: Bytes -> Option<Bytes>,
    base64Encode: Bytes -> string,
    base64Decode: string -> Option<Bytes>)

  /**
   * The laws of the library calls:
   *  - on these values, whose text is Unicode, json_encode fails only on
   *    documents nested deeper than 512 (its failure on invalid UTF-8 bytes
   *    has no counterpart here);
   *  - json_decode (objects as stdClass) reads back what json_encode wrote,
   *    except that it refuses property names starting with NUL;
   *  - json_decode("") and gzinflate("") fail;
   *  - gzinflate undoes gzdeflate (raw DEFLATE, RFC 1951);
   *  - base64_decode undoes base64_encode (section 4 of RFC 4648).
   */
  ghost predicate Lawful(c: Codec) {
    && (forall v :: c.jsonEncode(v).Some? <==> WithinDepth(v, MaxDepth))
    && (forall v | WithinDepth(v, MaxDepth) && DistinctNames(v) ::
          c.jsonDecode(c.jsonEncode(v).GetOr([])) == if NoNulNames(v) then Some(v) else None)
    && c.jsonDecode([]) == None
    && (forall b :: c.inflate(c.deflate(b)) == Some(b))
    && c.inflate([]) == None
    && (forall b :: c.base64Decode(c.base64Encode(b)) == Some(b))
  }

  // ---------------------------------------------------------------------------
  // The JSON document of a store
  // ---------------------------------------------------------------------------

  /** json_encode writes an array as a JSON list exactly when its keys are 0, 1, 2, ... in order. */
  predicate IsListShaped(es: seq<Entry>) {
    forall i | 0 <= i < |es| :: es[i].0.IntKey? && es[i].0.i == i
  }

  /** The object members of an array: keys spelled as names, values as they are. */
  function Members(es: seq<Entry>): (ms: seq<(string, Value)>)
    ensures |ms| == |es|
    ensures forall i | 0 <= i < |es| :: ms[i] == (KeyName(es[i].0), es[i].1)
  {
    seq(|es|, i requires 0 <= i < |es| => (KeyName(es[i].0), es[i].1))
  }

  /** `json_encode($this->store)` as a document: a list or an object; only the empty store is false. */
  function ToJson(s: Store): (j: Value)
    ensures j.List? <==> IsListShaped(s.entries)
    ensures j.List? || j.Object?
    ensures Truthy(j) <==> |s.entries| > 0
  {
    if IsListShaped(s.entries) then List(ValuesOf(s.entries)) else Object(Members(s.entries))
  }

  /** A store whose document json_decode reads back: values nested at most 511 deep, no NUL-led names. */
  predicate Representable(s: Store) {
    forall i | 0 <= i < |s.entries| ::
      && WithinDepth(s.entries[i].1, MaxDepth - 1)
      && DistinctNames(s.entries[i].1)
      && NoNulNames(s.entries[i].1)
      && !IsNulPrefixed(KeyName(s.entries[i].0))
  }

  /** The document of a representable store survives json_encode and json_decode. */
  lemma RepresentableEncodable(s: Store)
    requires Valid(s) && Representable(s)
    ensures Encodable(ToJson(s))
  {
    var es := s.entries;
    if !IsListShaped(es) {
      var ms := Members(es);
      forall i, j | 0 <= i < j < |ms|
        ensures ms[i].0 != ms[j].0
      {
        NamesDistinct(es[i].0, es[j].0);
      }
    }
  }

  // ---------------------------------------------------------------------------
  // The pipeline
  // ---------------------------------------------------------------------------

  /**
   * `serialize`: base64_encode(gzdeflate(json_encode(store))). A failed
   * json_encode returns false, which the next stage reads as "".
   */
  function Serialize(c: Codec, s: Store): (token: string)
    ensures Lawful(c) && Valid(s) && Representable(s) ==> DecodeToken(c, token) == Some(ToJson(s))
  {
    var text := c.jsonEncode(ToJson(s)).GetOr([]);
    var token := c.base64Encode(c.deflate(text));
    assert Lawful(c) && Valid(s) && Representable(s) ==> DecodeToken(c, token) == Some(ToJson(s)) by {
      if Lawful(c) && Valid(s) && Representable(s) {
        RepresentableEncodable(s);
      }
    }
    token
  }

  /** json_decode(gzinflate(base64_decode(token))), each `false` read as "" by the next stage. */
  function DecodeToken(c: Codec, token: string): (r: Option<Value>)
    ensures Lawful(c) && c.base64Decode(token).None? ==> r.None?
    ensures Lawful(c) && r.Some? ==>
              c.base64Decode(token).Some? && c.inflate(c.base64Decode(token).value).Some?
  {
    var compressed := c.base64Decode(token).GetOr([]);
    var text := c.inflate(compressed).GetOr([]);
    c.jsonDecode(text)
  }

  /** (array) of a stdClass: each property written under its name, read through the key rule. */
  function AddMembers(s: Store, ms: seq<(string, Value)>): (r: Store)
    ensures Valid(s) ==> Valid(r)
    ensures |r.entries| >= |s.entries|
    ensures |r.entries| <= |s.entries| + |ms|
    decreases ms
  {
    if |ms| == 0 then s
    else AddMembers(Set(s, StrOffset(ms[0].0), ms[0].1), ms[1..])
  }

  /**
   * `(array)$decoded`: a list keeps its positions as keys, an object its
   * members, and any other value becomes the single entry `[0 => value]`.
   */
  function Cast(v: Value): (r: Store)
    ensures Valid(r)
    ensures v.List? && |v.items| <= MaxInt64 + 1 ==>
              && |r.entries| == |v.items|
              && forall i | 0 <= i < |v.items| :: r.entries[i] == (IntKey(i), v.items[i])
    ensures !v.List? && !v.Object? ==> r.entries == [(IntKey(0), v)]
  {
    match v
    case List(items) =>
      var r := AppendAll(Empty, items);
      assert |items| <= MaxInt64 + 1 ==>
               && |r.entries| == |items|
               && forall i | 0 <= i < |items| :: r.entries[i] == (IntKey(i), items[i]) by {
        if |items| <= MaxInt64 + 1 {
          FreshAppends(items);
        }
      }
      r
    case Object(members) => AddMembers(Empty, members)
    case _ => Set(Empty, IntOffset(0), v)
  }

  /** What `unserialize` accepts: a token, or another store, which is turned into its token. */
  datatype Input = Token(text: string) | StoreObject(store: Store)

  /** The text `unserialize` decodes: a token as given, or another store's `__toString`. */
  function TokenOf(c: Codec, data: Input): (token: string)
    ensures data.Token? ==> token == data.text
    ensures Lawful(c) && data.StoreObject? && Valid(data.store) && Representable(data.store) ==>
              DecodeToken(c, token) == Some(ToJson(data.store))
  {
    match data
    case Token(t) => t
    case StoreObject(o) => ToString(c, o)
  }

  /**
   * `unserialize`: the decoded array replaces the contents; a failed stage or
   * a false result (null, false, 0, "", "0", []) leaves an empty store. The
   * result depends on the data alone, never on the previous contents.
   */
  function Unserialize(c: Codec, data: Input): (r: Store)
    ensures Valid(r)
    ensures DecodeToken(c, TokenOf(c, data)).None? ==> r == Empty
    ensures r.entries != [] ==> DecodeToken(c, TokenOf(c, data)).Some?
    ensures var d := DecodeToken(c, TokenOf(c, data)); d.Some? && Truthy(d.value) ==> r == Cast(d.value)
    ensures var d := DecodeToken(c, TokenOf(c, data)); d.Some? && !Truthy(d.value) ==> r == Empty
  {
    var decoded := DecodeToken(c, TokenOf(c, data));
    if decoded.Some? && Truthy(decoded.value) then Cast(decoded.value) else Empty
  }

  /** `__construct`: empty without data, otherwise `unserialize(data)`. */
  function Construct(c: Codec, data: Option<Input>): (r: Store)
    ensures Valid(r)
    ensures data.None? ==> r == Empty
    ensures data.Some? ==> r == Unserialize(c, data.value)
  {
    match data
    case None => Empty
    case Some(d) => Unserialize(c, d)
  }

  /** `__toString`: the token, the one text form of a store. */
  function ToString(c: Codec, s: Store): (token: string)
    ensures Lawful(c) && Valid(s) && Representable(s) ==> DecodeToken(c, token) == Some(ToJson(s))
  {
    Serialize(c, s)
  }
}

=== FILE: serialization_properties.dfy ===
/**
 * Properties of the token: the round trip, the re-serialisation that gives
 * the same token, the constructor, and the fail-soft fallback to an empty
 * store.
 */
module SerializationProperties {
  import opened Wrappers
  import opened Keys
  import opened Values
  import opened CerealStore
  import opened StoreProperties
  import opened Serialization

  /** Reading an object's members back through the key rule rebuilds the array they were written from. */
  lemma {:induction false} AddMembersIsAddArray(t: Store, es: seq<Entry>)
    requires NormalKeys(es)
    ensures AddMembers(t, Members(es)) == AddArray(t, es)
    decreases |es|
  {
    if |es| > 0 {
      var k := es[0].0;
      NameNormalizesBack(k);
      OffsetNormalizesBack(k);
      var t' := Set(t, KeyOffset(k), es[0].1);
      assert Set(t, StrOffset(KeyName(k)), es[0].1) == t';
      assert Members(es)[1..] == Members(es[1..]);
      AddMembersIsAddArray(t', es[1..]);
    }
  }

  /** Casting a store's own document gives the fresh array built from its entries. */
  lemma CastOfToJson(s: Store)
    requires Valid(s)
    ensures Cast(ToJson(s)) == AddArray(Empty, s.entries)
  {
    if IsListShaped(s.entries) {
      AppendAllIsAddArray(Empty, s.entries);
    } else {
      AddMembersIsAddArray(Empty, s.entries);
    }
  }

  /**
   * `unserialize(serialize(s))` holds the same entries in the same order, and
   * serialising it again gives the same token. The next free index is the one
   * a fresh array gets from those entries, so it can be lower than before.
   */
  lemma RoundTrip(c: Codec, s: Store)
    requires Lawful(c) && Valid(s) && Representable(s)
    ensures Unserialize(c, Token(Serialize(c, s))) == AddArray(Empty, s.entries)
    ensures Unserialize(c, Token(Serialize(c, s))).entries == s.entries
    ensures Serialize(c, Unserialize(c, Token(Serialize(c, s)))) == Serialize(c, s)
  {
    AddArrayIntoEmpty(s.entries);
    CastOfToJson(s);
    var r := AddArray(Empty, s.entries);
    assert ToJson(r) == ToJson(s);
  }

  /**
   * `new CerealStore($other)` converts the other store to its token first, and
   * so copies its entries; its token is the other store's token.
   */
  lemma ConstructFromStore(c: Codec, s: Store)
    requires Lawful(c) && Valid(s) && Representable(s)
    ensures Construct(c, Some(StoreObject(s))) == Construct(c, Some(Token(ToString(c, s))))
    ensures Construct(c, Some(StoreObject(s))).entries == s.entries
    ensures ToString(c, Construct(c, Some(StoreObject(s)))) == ToString(c, s)
  {
    RoundTrip(c, s);
  }

  /** Whichever stage fails, and whatever false value decodes, the store ends up empty. */
  lemma FailSoft(c: Codec, token: string)
    requires Lawful(c)
    ensures c.base64Decode(token).None? ==> Unserialize(c, Token(token)) == Empty
    ensures c.base64Decode(token).Some? && c.inflate(c.base64Decode(token).value).None? ==>
              Unserialize(c, Token(token)) == Empty
    ensures DecodeToken(c, token).Some? && !Truthy(DecodeToken(c, token).value) ==>
              Unserialize(c, Token(token)) == Empty
  {
  }

  /** The keys a decoded object's member names address, each with its member's value. */
  function ObjectEntries(ms: seq<(string, Value)>): (es: seq<Entry>)
    ensures |es| == |ms|
    ensures forall i | 0 <= i < |ms| :: es[i] == (NormalizeKey(StrOffset(ms[i].0)), ms[i].1)
  {
    seq(|ms|, i requires 0 <= i < |ms| => (NormalizeKey(StrOffset(ms[i].0)), ms[i].1))
  }

  /**
   * `(array)` of any decoded object: each member lands under the key its name
   * addresses, with its value, in the object's order.
   */
  lemma ForeignObject(ms: seq<(string, Value)>)
    requires forall i, j | 0 <= i < j < |ms| :: ms[i].0 != ms[j].0
    ensures AddMembers(Empty, ms).entries == ObjectEntries(ms)
  {
    var es := ObjectEntries(ms);
    forall i | 0 <= i < |ms|
      ensures KeyName(es[i].0) == ms[i].0
    {
      var k := NormalizeKey(StrOffset(ms[i].0));
      assert KeyName(k) == ms[i].0 by {
        if k.IntKey? {
          assert IntToDecimal(k.i) == ms[i].0;
        }
      }
    }
    assert NormalKeys(es);
    assert Members(es) == ms;
    AddMembersIsAddArray(Empty, es);
    AddArrayIntoEmpty(es);
  }

  /**
   * A token the store did not write: a decoded list is filed under 0, 1, 2, ...
   * in order, an object's members under the keys their names address, and a
   * truthy scalar becomes the one entry `0 => value`.
   */
  lemma ForeignToken(c: Codec, token: string)
    ensures var d := DecodeToken(c, token);
            d.Some? && d.value.List? && |d.value.items| <= MaxInt64 + 1 ==>
              Unserialize(c, Token(token)).entries ==
                seq(|d.value.items|, i requires 0 <= i < |d.value.items| => (IntKey(i), d.value.items[i]))
    ensures var d := DecodeToken(c, token);
            d.Some? && Truthy(d.value) && !d.value.List? && !d.value.Object? ==>
              Unserialize(c, Token(token)).entries == [(IntKey(0), d.value)]
    ensures var d := DecodeToken(c, token);
            d.Some? && d.value.Object? &&
            (forall i, j | 0 <= i < j < |d.value.members| :: d.value.members[i].0 != d.value.members[j].0) ==>
              Unserialize(c, Token(token)).entries == ObjectEntries(d.value.members)
  {
    var d := DecodeToken(c, token);
    if d.Some? && d.value.Object? && forall i, j | 0 <= i < j < |d.value.members| :: d.value.members[i].0 != d.value.members[j].0 {
      ForeignObject(d.value.members);
    }
  }

  /**
   * A store holding a value nested 512 deep makes json_encode fail; the token
   * then carries an empty text and unserialises to an empty store.
   */
  lemma TooDeepEmpties(c: Codec, s: Store, i: nat)
    requires Lawful(c)
    requires i < |s.entries| && !WithinDepth(s.entries[i].1, MaxDepth - 1)
    ensures Unserialize(c, Token(Serialize(c, s))) == Empty
  {
    var j := ToJson(s);
    if IsListShaped(s.entries) {
      assert j.items[i] == s.entries[i].1;
    } else {
      assert j.members[i].1 == s.entries[i].1;
    }
    assert !WithinDepth(j, MaxDepth);
    var d: Bytes := c.deflate([]);
    assert c.inflate(d) == Some([]);
  }

  /** A decimal key spelling starts with '-' or a digit, never with NUL. */
  lemma IntNameNotNul(i: Int64)
    ensures !IsNulPrefixed(IntToDecimal(i))
  {
    var t := IntToDecimal(i);
    assert t[0] == '-' || IsDigit(t[0]);
  }

  /**
   * One key that starts with NUL loses the whole store: json_decode refuses
   * the property name, and unserialize falls back to empty.
   */
  lemma NulKeyEmpties(c: Codec, s: Store, i: nat)
    requires Lawful(c) && Valid(s)
    requires forall j | 0 <= j < |s.entries| ::
               WithinDepth(s.entries[j].1, MaxDepth - 1) && DistinctNames(s.entries[j].1)
    requires i < |s.entries| && IsNulPrefixed(KeyName(s.entries[i].0))
    ensures Unserialize(c, Token(Serialize(c, s))) == Empty
  {
    var es := s.entries;
    if es[i].0.IntKey? {
      IntNameNotNul(es[i].0.i);
    }
    assert !IsListShaped(es);
    var ms := Members(es);
    forall a, b | 0 <= a < b < |ms|
      ensures ms[a].0 != ms[b].0
    {
      NamesDistinct(es[a].0, es[b].0);
    }
    var j := ToJson(s);
    assert j == Object(ms);
    assert WithinDepth(j, MaxDepth) && DistinctNames(j) && !NoNulNames(j);
  }

  /** The array of the class's serialisation test. */
  function TestData(): seq<Entry> {
    [(StrKey("one"), Int(1)), (StrKey("two"), Int(2)), (StrKey("three"), Int(3))]
  }

  lemma TestDataIsArray()
    ensures IsArray(TestData())
  {
    assert !IsDigit('o') && !IsDigit('t');
    assert !IsIntegerKeyString("one") && !IsIntegerKeyString("two") && !IsIntegerKeyString("three");
  }

  /** Any store holding the test data can be written out and read back. */
  lemma TestDataRepresentable(s: Store)
    requires s.entries == TestData()
    ensures Representable(s)
  {
    assert forall i | 0 <= i < |s.entries| :: s.entries[i].0.StrKey? && s.entries[i].0.s[0] != '\0' && s.entries[i].1.Int?;
  }

  lemma TestDataStore()
    ensures AddArray(Empty, TestData()).entries == TestData()
    ensures Valid(AddArray(Empty, TestData())) && Representable(AddArray(Empty, TestData()))
  {
    var d := TestData();
    TestDataIsArray();
    AddArrayIntoEmpty(d);
    var s := AddArray(Empty, d);
    TestDataRepresentable(s);
  }

  lemma TestDataLookups(s: Store)
    requires s.entries == TestData()
    ensures Has(s, StrOffset("one")) && Has(s, StrOffset("two")) && Has(s, StrOffset("three"))
    ensures Get(s, StrOffset("two")) == Int(2)
  {
    assert !IsDigit('o') && !IsDigit('t');
    assert NormalizeKey(StrOffset("one")) == StrKey("one");
    assert NormalizeKey(StrOffset("two")) == StrKey("two");
    assert NormalizeKey(StrOffset("three")) == StrKey("three");
    assert s.entries[0].0 == StrKey("one");
    assert s.entries[1].0 == StrKey("two");
    assert s.entries[2].0 == StrKey("three");
  }

  /**
   * The class's serialisation test: three pairs added, serialised, read back
   * through the constructor: the same count, keys and values, and the same token.
   */
  lemma SerializationScenario(c: Codec)
    requires Lawful(c)
    ensures
      var s := AddArray(Empty, TestData());
      var t := Serialize(c, s);
      var s3 := Construct(c, Some(Token(t)));
      && Count(s) == 3
      && Has(s3, StrOffset("one")) && Has(s3, StrOffset("two")) && Has(s3, StrOffset("three"))
      && Get(s3, StrOffset("two")) == Int(2)
      && ToString(c, s3) == t
  {
    TestDataStore();
    var s := AddArray(Empty, TestData());
    RoundTrip(c, s);
    var s3 := Construct(c, Some(Token(Serialize(c, s))));
    TestDataLookups(s3);
  }
}

=== FILE: store.dfy ===
/**
 * The store: a PHP array of (key, value) entries in insertion order,
 * with the array-access, Countable and Iterator operations of the class.
 */
module CerealStore {
  import opened Wrappers
  import opened Keys
  import opened Values

  type Entry = (Key, Value)

  /**
   * A PHP array: its entries in insertion order and the index the next
   * `$array[] = $v` uses (the engine's next free element).
   */
  datatype Store = Store(entries: seq<Entry>, nextFree: Int64)

  /** `array()`: no entries, next free index 0. */
  const Empty: Store := Store([], 0)

  predicate UniqueKeys(es: seq<Entry>) {
    forall i, j | 0 <= i < j < |es| :: es[i].0 != es[j].0
  }

  predicate NormalKeys(es: seq<Entry>) {
    forall i | 0 <= i < |es| :: IsNormalKey(es[i].0)
  }

  /** Every integer key lies below the next free index. */
  predicate BelowNext(s: Store) {
    forall i | 0 <= i < |s.entries| && s.entries[i].0.IntKey? :: s.entries[i].0.i < s.nextFree
  }

  /**
   * What every array the class can reach satisfies: unique normal keys, and a
   * next free index above every integer key, except that it sticks at
   * PHP_INT_MAX once that key is taken.
   */
  predicate Valid(s: Store) {
    && UniqueKeys(s.entries)
    && NormalKeys(s.entries)
    && 0 <= s.nextFree
    && forall i | 0 <= i < |s.entries| && s.entries[i].0.IntKey? ::
         s.entries[i].0.i < s.nextFree || s.entries[i].0.i == s.nextFree == MaxInt64
  }

  /** A PHP array given as an argument: unique keys, each already normal. */
  predicate IsArray(es: seq<Entry>) {
    UniqueKeys(es) && NormalKeys(es)
  }

  function KeySet(es: seq<Entry>): set<Key> {
    set i | 0 <= i < |es| :: es[i].0
  }

  // ---------------------------------------------------------------------------
  // Lookup
  // ---------------------------------------------------------------------------

  /** The position of the first entry under `k`. */
  function IndexOf(es: seq<Entry>, k: Key): (r: Option<nat>)
    ensures r.Some? ==> r.value < |es| && es[r.value].0 == k
    ensures r.Some? ==> forall j | 0 <= j < r.value :: es[j].0 != k
    ensures r.None? ==> forall j | 0 <= j < |es| :: es[j].0 != k
  {
    if |es| == 0 then None
    else if es[0].0 == k then Some(0)
    else
      match IndexOf(es[1..], k)
      case Some(i) => Some(i + 1)
      case None => None
  }

  function Lookup(es: seq<Entry>, k: Key): Option<Value> {
    match IndexOf(es, k)
    case Some(i) => Some(es[i].1)
    case None => None
  }

  /** Two entry sequences with the same key at every position find every key at the same place. */
  lemma SameKeysSameIndex(es1: seq<Entry>, es2: seq<Entry>, k: Key)
    requires |es1| == |es2|
    requires forall i | 0 <= i < |es1| :: es1[i].0 == es2[i].0
    ensures IndexOf(es1, k) == IndexOf(es2, k)
  {
    var a, b := IndexOf(es1, k), IndexOf(es2, k);
    if a.Some? {
      assert es2[a.value].0 == k;
    }
    if b.Some? {
      assert es1[b.value].0 == k;
    }
  }

  /** Appending an entry under another key does not move any key already present. */
  lemma AppendedIndex(es: seq<Entry>, e: Entry, k: Key)
    requires e.0 != k
    ensures IndexOf(es + [e], k) == IndexOf(es, k)
  {
    var a, b := IndexOf(es + [e], k), IndexOf(es, k);
    if b.Some? {
      assert (es + [e])[b.value].0 == k;
    }
    if a.Some? {
      assert a.value < |es|;
      assert es[a.value].0 == k;
    }
  }

  // ---------------------------------------------------------------------------
  // Writing
  // ---------------------------------------------------------------------------

  /** The engine's update of the next free index after a new integer key `h` is added. */
  function Bump(next: Int64, h: Int64): Int64 {
    if h >= next then (if h < MaxInt64 then h + 1 else MaxInt64) else next
  }

  /**
   * `$array[$k] = $v` for a normal key: an existing entry is overwritten
   * where it stands, a new one goes to the end.
   */
  function Put(s: Store, k: Key, v: Value): (r: Store)
    ensures Lookup(r.entries, k) == Some(v)
    ensures forall k' | k' != k :: Lookup(r.entries, k') == Lookup(s.entries, k')
    ensures IndexOf(s.entries, k).Some? ==>
              && |r.entries| == |s.entries|
              && (forall i | 0 <= i < |s.entries| :: r.entries[i].0 == s.entries[i].0)
              && r.nextFree == s.nextFree
    ensures IndexOf(s.entries, k).None? ==> r.entries == s.entries + [(k, v)]
    ensures r.nextFree >= s.nextFree
    ensures IndexOf(s.entries, k).None? && k.StrKey? ==> r.nextFree == s.nextFree
    ensures IndexOf(s.entries, k).None? && k.IntKey? && k.i < MaxInt64 ==>
              r.nextFree == if k.i >= s.nextFree then k.i + 1 else s.nextFree
    ensures IndexOf(s.entries, k).None? && k == IntKey(MaxInt64) ==> r.nextFree == MaxInt64
    ensures Valid(s) && IsNormalKey(k) ==> Valid(r)
  {
    match IndexOf(s.entries, k)
    case Some(i) =>
      var r := Store(s.entries[i := (k, v)], s.nextFree);
      assert forall k' :: IndexOf(r.entries, k') == IndexOf(s.entries, k') by {
        forall k' {
          SameKeysSameIndex(r.entries, s.entries, k');
        }
      }
      r
    case None =>
      var r := Store(s.entries + [(k, v)], if k.IntKey? then Bump(s.nextFree, k.i) else s.nextFree);
      assert r.entries[|s.entries|].0 == k;
      assert forall k' | k' != k :: IndexOf(r.entries, k') == IndexOf(s.entries, k') by {
        forall k' | k' != k {
          AppendedIndex(s.entries, (k, v), k');
        }
      }
      r
  }

  /**
   * `$array[] = $v`: the value goes in under the next free index. When that
   * index is already taken (only possible once PHP_INT_MAX is used) the
   * engine refuses with a warning and the array is unchanged.
   */
  function Append(s: Store, v: Value): (r: Store)
    ensures r == s || r.entries == s.entries + [(IntKey(s.nextFree), v)]
    ensures Valid(s) ==> Valid(r)
    ensures Valid(s) ==> (r == s <==> s.nextFree == MaxInt64 && IndexOf(s.entries, IntKey(MaxInt64)).Some?)
    ensures Valid(s) && r != s ==> BelowNext(s)
    ensures r != s && s.nextFree < MaxInt64 ==> r.nextFree == s.nextFree + 1
    ensures r != s && s.nextFree == MaxInt64 ==> r.nextFree == MaxInt64
  {
    var k := IntKey(s.nextFree);
    if IndexOf(s.entries, k).Some? then s else Put(s, k, v)
  }

  /** `offsetSet` and `add`: a null offset appends, any other is normalised and written. */
  function Set(s: Store, o: Offset, v: Value): (r: Store)
    ensures Valid(s) ==> Valid(r)
    ensures !o.NullOffset? ==> Lookup(r.entries, NormalizeKey(o)) == Some(v)
    ensures !o.NullOffset? ==>
              forall k' | k' != NormalizeKey(o) :: Lookup(r.entries, k') == Lookup(s.entries, k')
    ensures o.NullOffset? ==> r == Append(s, v)
  {
    if o.NullOffset? then Append(s, v) else Put(s, NormalizeKey(o), v)
  }

  // ---------------------------------------------------------------------------
  // Reading
  // ---------------------------------------------------------------------------

  /** `offsetExists` and `has`: whether an entry sits under the normalised key, whatever its value. */
  function Has(s: Store, o: Offset): (b: bool)
    ensures b <==> exists i | 0 <= i < |s.entries| :: s.entries[i].0 == NormalizeKey(o)
  {
    IndexOf(s.entries, NormalizeKey(o)).Some?
  }

  /** `offsetGet` and `get`: the stored value when `isset` holds, null otherwise. */
  function Get(s: Store, o: Offset): (v: Value)
    ensures !Has(s, o) ==> v == Null
    ensures Has(s, o) ==> Lookup(s.entries, NormalizeKey(o)) == Some(v)
  {
    match Lookup(s.entries, NormalizeKey(o))
    case Some(x) => if x.Null? then Null else x
    case None => Null
  }

  // ---------------------------------------------------------------------------
  // Removing
  // ---------------------------------------------------------------------------

  /** The entries without those under `k`, in their order. */
  function Without(es: seq<Entry>, k: Key): (r: seq<Entry>)
    ensures forall i | 0 <= i < |r| :: r[i].0 != k
    ensures UniqueKeys(es) ==>
              match IndexOf(es, k)
              case Some(i) => r == es[..i] + es[i + 1..]
              case None => r == es
  {
    if |es| == 0 then []
    else if es[0].0 == k then
      var r := Without(es[1..], k);
      assert UniqueKeys(es) ==> forall j | 0 <= j < |es[1..]| :: es[1..][j].0 != k by {
        if UniqueKeys(es) {
          forall j | 0 <= j < |es[1..]| ensures es[1..][j].0 != k {
            assert es[1..][j] == es[j + 1];
          }
        }
      }
      r
    else
      var r := [es[0]] + Without(es[1..], k);
      assert UniqueKeys(es) ==> UniqueKeys(es[1..]);
      assert UniqueKeys(es) && IndexOf(es, k).Some? ==>
               r == es[..IndexOf(es, k).value] + es[IndexOf(es, k).value + 1..] by {
        if UniqueKeys(es) && IndexOf(es, k).Some? {
          var i := IndexOf(es[1..], k).value;
          assert es[1..][..i] == es[1..i + 1];
          assert es[1..][i + 1..] == es[i + 2..];
          assert es[..i + 1] == [es[0]] + es[1..i + 1];
        }
      }
      r
  }

  /** Past a first entry under another key, a lookup continues in the rest. */
  lemma LookupTail(es: seq<Entry>, k: Key)
    requires |es| > 0 && es[0].0 != k
    ensures Lookup(es, k) == Lookup(es[1..], k)
  {
    match IndexOf(es[1..], k)
    case Some(i) =>
      assert es[1..][i] == es[i + 1];
    case None =>
  }

  /** Removing one key leaves what every other key finds. */
  lemma {:induction false} WithoutKeepsOthers(es: seq<Entry>, k: Key, k': Key)
    requires k' != k
    ensures Lookup(Without(es, k), k') == Lookup(es, k')
  {
    if |es| > 0 {
      WithoutKeepsOthers(es[1..], k, k');
      var w := Without(es, k);
      if es[0].0 == k {
        assert w == Without(es[1..], k);
        LookupTail(es, k');
      } else {
        assert w == [es[0]] + Without(es[1..], k);
        if es[0].0 != k' {
          assert w[1..] == Without(es[1..], k);
          LookupTail(es, k');
          LookupTail(w, k');
        }
      }
    }
  }

  /** Dropping one entry keeps an array valid. */
  lemma DropValid(s: Store, i: nat)
    requires Valid(s) && i < |s.entries|
    ensures Valid(Store(s.entries[..i] + s.entries[i + 1..], s.nextFree))
  {
    var es := s.entries;
    var r := es[..i] + es[i + 1..];
    assert forall a | 0 <= a < |r| :: r[a] == es[if a < i then a else a + 1];
  }

  /** `offsetUnset` and `remove`: drops the entry under the normalised key; the next free index stays. */
  function Remove(s: Store, o: Offset): (r: Store)
    ensures !Has(r, o)
    ensures forall k' | k' != NormalizeKey(o) :: Lookup(r.entries, k') == Lookup(s.entries, k')
    ensures r.nextFree == s.nextFree
    ensures Valid(s) ==> Valid(r)
    ensures Valid(s) ==>
              match IndexOf(s.entries, NormalizeKey(o))
              case Some(i) => r.entries == s.entries[..i] + s.entries[i + 1..]
              case None => r == s
  {
    var k := NormalizeKey(o);
    var r := Store(Without(s.entries, k), s.nextFree);
    assert Valid(s) ==> Valid(r) by {
      if Valid(s) && IndexOf(s.entries, k).Some? {
        DropValid(s, IndexOf(s.entries, k).value);
      }
    }
    assert forall k' | k' != k :: Lookup(r.entries, k') == Lookup(s.entries, k') by {
      forall k' | k' != k
        ensures Lookup(r.entries, k') == Lookup(s.entries, k')
      {
        WithoutKeepsOthers(s.entries, k, k');
      }
    }
    r
  }

  // ---------------------------------------------------------------------------
  // Counting
  // ---------------------------------------------------------------------------

  /** Distinct keys: one entry per key. */
  lemma {:induction false} DistinctKeysCount(es: seq<Entry>)
    requires UniqueKeys(es)
    ensures |KeySet(es)| == |es|
  {
    if |es| > 0 {
      var p := es[..|es| - 1];
      DistinctKeysCount(p);
      assert KeySet(es) == KeySet(p) + {es[|es| - 1].0};
      assert es[|es| - 1].0 !in KeySet(p);
    }
  }

  /** `count`: the number of entries, which is the number of distinct keys stored. */
  function Count(s: Store): (n: nat)
    ensures Valid(s) ==> n == |KeySet(s.entries)|
    ensures Valid(s) ==> (n == 0 <==> forall o :: !Has(s, o))
  {
    assert Valid(s) ==> |KeySet(s.entries)| == |s.entries| by {
      if Valid(s) {
        DistinctKeysCount(s.entries);
      }
    }
    assert Valid(s) && |s.entries| > 0 ==> Has(s, KeyOffset(s.entries[0].0)) by {
      if Valid(s) && |s.entries| > 0 {
        OffsetNormalizesBack(s.entries[0].0);
      }
    }
    |s.entries|
  }

  // ---------------------------------------------------------------------------
  // Bulk writes
  // ---------------------------------------------------------------------------

  /** `addArray`: `add` for each pair of the given array, in its order. */
  function AddArray(s: Store, d: seq<Entry>): (r: Store)
    ensures Valid(s) && NormalKeys(d) ==> Valid(r)
    ensures |r.entries| >= |s.entries|
    decreases d
  {
    if |d| == 0 then s
    else AddArray(Set(s, KeyOffset(d[0].0), d[0].1), d[1..])
  }

  /** Repeated `$array[] = $v`, as on a fresh store or as json_decode builds a list. */
  function AppendAll(s: Store, vs: seq<Value>): (r: Store)
    ensures Valid(s) ==> Valid(r)
    decreases vs
  {
    if |vs| == 0 then s
    else AppendAll(Append(s, vs[0]), vs[1..])
  }

  /** The values of entries, in order. */
  function ValuesOf(es: seq<Entry>): (vs: seq<Value>)
    ensures |vs| == |es|
    ensures forall i | 0 <= i < |es| :: vs[i] == es[i].1
  {
    seq(|es|, i requires 0 <= i < |es| => es[i].1)
  }

  // ---------------------------------------------------------------------------
  // Iteration
  // ---------------------------------------------------------------------------

  /** `key()` at a position: the entry's key, or null past the end. */
  function KeyAt(s: Store, pos: nat): (k: Option<Key>)
    ensures k.Some? <==> pos < |s.entries|
    ensures k.Some? ==> k.value == s.entries[pos].0
  {
    if pos < |s.entries| then Some(s.entries[pos].0) else None
  }

  /** `current()` at a position: the entry's value, or false (None here) past the end. */
  function CurrentAt(s: Store, pos: nat): (v: Option<Value>)
    ensures v.Some? <==> pos < |s.entries|
    ensures v.Some? ==> v.value == s.entries[pos].1
  {
    if pos < |s.entries| then Some(s.entries[pos].1) else None
  }

  /** `valid()`: the key at the position is not null. */
  predicate ValidAt(s: Store, pos: nat) {
    KeyAt(s, pos).Some?
  }

  /**
   * A `foreach` over the store: `rewind`, then `key`/`current` and `next`
   * while `valid`. It yields every entry once, in insertion order.
   */
  method Iterate(s: Store) returns (pairs: seq<Entry>)
    ensures pairs == s.entries
  {
    var pos: nat := 0;
    pairs := [];
    while ValidAt(s, pos)
      invariant pos <= |s.entries|
      invariant pairs == s.entries[..pos]
      decreases |s.entries| - pos
    {
      pairs := pairs + [(KeyAt(s, pos).value, CurrentAt(s, pos).value)];
      pos := pos + 1;
    }
  }
}

=== FILE: store_properties.dfy ===
/**
 * Properties of the store that relate several operations: bulk writes,
 * appends on a fresh store, and the behaviours the class's tests pin down.
 */
module StoreProperties {
  import opened Wrappers
  import opened Keys
  import opened Values
  import opened CerealStore

  /** What `k` finds after `addArray(d)`: d's value when d has the key, the old lookup otherwise. */
  lemma {:induction false} AddArrayLookup(s: Store, d: seq<Entry>, k: Key)
    requires IsArray(d)
    ensures Lookup(AddArray(s, d).entries, k) ==
              match IndexOf(d, k)
              case Some(i) => Some(d[i].1)
              case None => Lookup(s.entries, k)
    decreases |d|
  {
    if |d| > 0 {
      OffsetNormalizesBack(d[0].0);
      var s' := Set(s, KeyOffset(d[0].0), d[0].1);
      assert IsArray(d[1..]);
      AddArrayLookup(s', d[1..], k);
      if k == d[0].0 {
        forall j | 0 <= j < |d[1..]|
          ensures d[1..][j].0 != k
        {
          assert d[1..][j] == d[j + 1];
        }
      }
    }
  }

  /** One step of `addArray`: the first pair is written under its own key. */
  lemma AddArrayStep(t: Store, es: seq<Entry>)
    requires |es| > 0 && IsNormalKey(es[0].0)
    ensures AddArray(t, es) == AddArray(Put(t, es[0].0, es[0].1), es[1..])
  {
    OffsetNormalizesBack(es[0].0);
  }

  /** Putting the first pair back in front of the rest; kept apart so the step below stays small. */
  lemma Regroup(a: seq<Entry>, es: seq<Entry>)
    requires |es| > 0
    ensures a + [es[0]] + es[1..] == a + es
  {
    assert es == [es[0]] + es[1..];
  }

  /** Writing an array of keys new to the store appends its pairs, in order. */
  lemma {:induction false} AddArrayExtends(t: Store, es: seq<Entry>)
    requires IsArray(es)
    requires forall i | 0 <= i < |es| :: IndexOf(t.entries, es[i].0).None?
    ensures AddArray(t, es).entries == t.entries + es
    decreases |es|
  {
    if |es| > 0 {
      var e := es[0];
      var rest := es[1..];
      AddArrayStep(t, es);
      var t' := Put(t, e.0, e.1);
      assert t'.entries == t.entries + [e];
      assert IsArray(rest);
      forall i | 0 <= i < |rest|
        ensures IndexOf(t'.entries, rest[i].0).None?
      {
        assert rest[i] == es[i + 1];
        AppendedIndex(t.entries, e, rest[i].0);
      }
      AddArrayExtends(t', rest);
      Regroup(t.entries, es);
    }
  }

  /** `addArray(d)` on a fresh store holds exactly d's pairs in d's order; so count equals d's size. */
  lemma AddArrayIntoEmpty(d: seq<Entry>)
    requires IsArray(d)
    ensures AddArray(Empty, d).entries == d
    ensures Count(AddArray(Empty, d)) == |d|
  {
    AddArrayExtends(Empty, d);
  }

  /**
   * Appending values one after another writes them under consecutive indices
   * from the next free one, exactly as `addArray` of those index/value pairs.
   */
  lemma {:induction false} AppendAllIsAddArray(t: Store, es: seq<Entry>)
    requires |es| > 0 ==> BelowNext(t)
    requires forall i | 0 <= i < |es| :: es[i].0.IntKey? && es[i].0.i == t.nextFree + i
    ensures AppendAll(t, ValuesOf(es)) == AddArray(t, es)
    decreases |es|
  {
    if |es| > 0 {
      var k := es[0].0;
      assert IndexOf(t.entries, k).None?;
      var t' := Put(t, k, es[0].1);
      assert Append(t, es[0].1) == t';
      assert Set(t, KeyOffset(k), es[0].1) == t';
      if |es| > 1 {
        assert es[1].0.i == t.nextFree + 1;
        assert t'.nextFree == t.nextFree + 1;
        assert BelowNext(t');
      }
      assert ValuesOf(es)[1..] == ValuesOf(es[1..]);
      AppendAllIsAddArray(t', es[1..]);
    }
  }

  /** Index/value pairs 0, 1, 2, ... for a list of values. */
  function Indexed(vs: seq<Value>): (es: seq<Entry>)
    requires |vs| <= MaxInt64 + 1
    ensures |es| == |vs|
    ensures forall i | 0 <= i < |vs| :: es[i] == (IntKey(i), vs[i])
  {
    seq(|vs|, i requires 0 <= i < |vs| => (IntKey(i), vs[i]))
  }

  /**
   * `$store[] = v` repeated on a fresh store: the values get keys 0, 1, 2, ...
   * and iteration yields them in that order.
   */
  lemma FreshAppends(vs: seq<Value>)
    requires |vs| <= MaxInt64 + 1
    ensures |AppendAll(Empty, vs).entries| == |vs|
    ensures forall i | 0 <= i < |vs| :: AppendAll(Empty, vs).entries[i] == (IntKey(i), vs[i])
  {
    var es := Indexed(vs);
    assert ValuesOf(es) == vs;
    AppendAllIsAddArray(Empty, es);
    AddArrayIntoEmpty(es);
  }

  /**
   * `get` cannot tell a stored null from a missing key; `has` can, and it
   * holds whatever the value, null and false included.
   */
  lemma GetHidesNull(s: Store, o: Offset)
    requires !o.NullOffset?
    ensures Get(Set(s, o, Null), o) == Null == Get(Remove(s, o), o)
    ensures Has(Set(s, o, Null), o) && Has(Set(s, o, Bool(false)), o)
    ensures !Has(Remove(s, o), o)
  {
  }

  /** Removing a present key lowers the count by one; removing an absent key changes nothing. */
  lemma RemoveCount(s: Store, o: Offset)
    requires Valid(s)
    ensures Has(s, o) ==> Count(Remove(s, o)) == Count(s) - 1
    ensures !Has(s, o) ==> Remove(s, o) == s
  {
  }

  /** Writing `"a"`, `"b"`, then `"a"` again keeps `"a"` first, with its new value. */
  lemma OverwriteKeepsPosition()
    ensures
      var s1 := Set(Empty, StrOffset("a"), Int(1));
      var s2 := Set(s1, StrOffset("b"), Int(2));
      var s3 := Set(s2, StrOffset("a"), Int(3));
      s3.entries == [(StrKey("a"), Int(3)), (StrKey("b"), Int(2))]
  {
    assert !IsDigit('a') && !IsDigit('b');
    assert NormalizeKey(StrOffset("a")) == StrKey("a");
    assert NormalizeKey(StrOffset("b")) == StrKey("b");
  }

  /** `$s[5] = a; $s[] = b;` files `b` under 6, the index after the largest integer key. */
  lemma AppendAfterIntKey(a: Value, b: Value)
    ensures
      var s1 := Set(Empty, IntOffset(5), a);
      Set(s1, NullOffset, b) == Store([(IntKey(5), a), (IntKey(6), b)], 7)
  {
  }

  lemma TwoAppends(a: Value, b: Value)
    ensures AppendAll(Empty, [a, b]) == Store([(IntKey(0), a), (IntKey(1), b)], 2)
  {
    var t1 := Append(Empty, a);
    assert t1 == Store([(IntKey(0), a)], 1);
    var t2 := Append(t1, b);
    assert IndexOf(t1.entries, IntKey(1)).None?;
    assert t2 == Store([(IntKey(0), a), (IntKey(1), b)], 2);
    assert [a, b][1..] == [b];
    assert AppendAll(t1, [b]) == t2;
  }

  lemma RemoveSecond(a: Value, b: Value)
    ensures Remove(Store([(IntKey(0), a), (IntKey(1), b)], 2), IntOffset(1)) == Store([(IntKey(0), a)], 2)
  {
    var t := Store([(IntKey(0), a), (IntKey(1), b)], 2);
    assert Valid(t);
    assert IndexOf(t.entries, IntKey(1)) == Some(1);
    assert t.entries[..1] + t.entries[2..] == [(IntKey(0), a)];
  }

  /**
   * The next free index is not part of the entries: after two appends and the
   * removal of index 1 the store appends at 2, while a fresh array built from
   * the same entries appends at 1.
   */
  lemma FreshArrayForgetsNextIndex(a: Value, b: Value)
    ensures
      var s := Remove(AppendAll(Empty, [a, b]), IntOffset(1));
      && s.entries == [(IntKey(0), a)]
      && s.nextFree == 2
      && AddArray(Empty, s.entries).entries == s.entries
      && AddArray(Empty, s.entries).nextFree == 1
  {
    TwoAppends(a, b);
    RemoveSecond(a, b);
    var e := [(IntKey(0), a)];
    assert AddArray(Empty, e) == AddArray(Store(e, 1), []);
  }
}

=== FILE: values.dfy ===
/**
 * The values a store holds, in the shape the JSON stage of the codec
 * preserves: null, booleans, 64-bit integers, strings, lists and objects
 * (an object is an ordered sequence of named members).
 */
module Values {
  import opened Keys

  datatype Value =
    | Null
    | Bool(b: bool)
    | Int(n: Int64)
    | Str(s: string)
    | List(items: seq<Value>)
    | Object(members: seq<(string, Value)>)

  /** json_encode and json_decode give up on containers nested deeper than this. */
  const MaxDepth: nat := 512

  /** PHP's truth test on a decoded value; any object, even an empty one, is true. */
  predicate Truthy(v: Value) {
    match v
    case Null => false
    case Bool(b) => b
    case Int(n) => n != 0
    case Str(s) => s != "" && s != "0"
    case List(items) => |items| > 0
    case Object(_) => true
  }

  /** The values PHP reads as false: null, false, 0, "", "0" and the empty array; nothing else. */
  lemma FalseValues(v: Value)
    ensures !Truthy(v) <==> v == Null || v == Bool(false) || v == Int(0) || v == Str("") || v == Str("0") || v == List([])
  {
  }

  /** No more than `d` containers are nested inside one another in `v`. */
  predicate WithinDepth(v: Value, d: nat) {
    match v
    case List(items) =>
      d > 0 && forall i | 0 <= i < |items| :: WithinDepth(items[i], d - 1)
    case Object(members) =>
      d > 0 && forall i | 0 <= i < |members| :: WithinDepth(members[i].1, d - 1)
    case _ => true
  }

  /** Every object in `v` names each member once, as a PHP array or object does. */
  predicate DistinctNames(v: Value) {
    match v
    case List(items) =>
      forall i | 0 <= i < |items| :: DistinctNames(items[i])
    case Object(members) =>
      && (forall i, j | 0 <= i < j < |members| :: members[i].0 != members[j].0)
      && (forall i | 0 <= i < |members| :: DistinctNames(members[i].1))
    case _ => true
  }

  /** json_decode refuses an object property whose name starts with a NUL character. */
  predicate IsNulPrefixed(name: string) {
    |name| > 0 && name[0] == '\0'
  }

  predicate NoNulNames(v: Value) {
    match v
    case List(items) =>
      forall i | 0 <= i < |items| :: NoNulNames(items[i])
    case Object(members) =>
      forall i | 0 <= i < |members| :: !IsNulPrefixed(members[i].0) && NoNulNames(members[i].1)
    case _ => true
  }

  /** A document that json_encode writes and json_decode reads back unchanged. */
  predicate Encodable(v: Value) {
    WithinDepth(v, MaxDepth) && DistinctNames(v) && NoNulNames(v)
  }
}

=== FILE: wrappers.dfy ===
/** An optional value: a lookup under a key the store lacks, or a library stage that returns false. */
module Wrappers {

  datatype Option<+T> = None | Some(value: T) {

    /** What PHP passes on when a stage fails: the value if present, `default` in place of false. */
    function GetOr(default: T): T {
      match this
      case Some(v) => v
      case None => default
    }
  }
}
